=== FILE: README.md ===
# Incremental resource build pipeline — a Dafny model

This project models the editor's `ResourceBuilder`, which turns shader sources,
images and environment maps into compiled runtime artifacts by queueing runs of
the external tools `shaderc`, `texturec` and `cmft`. It also models the output
path naming the terrain consumer uses when it requests those builds.

The builder keeps two timestamp caches. The **committed** cache
(`m_modifyTimeCache`) is loaded from `modifyTimeCache.bin` at construction.
The **pending** cache (`m_newModifyTimeCache`) collects timestamps seen in the
current run. `CheckFileStatus` classifies an (input, output) pair in a fixed
priority: missing input, input unknown to the cache, input timestamp changed,
output missing, stable. Each `Add*BuildTask` consults a skip set of statuses
and, unless the status is in it, appends one blocking process to a FIFO queue.
`Update` runs the whole queue in order. It then merges pending into committed
and rewrites the cache file as `path=timestamp` lines, but only if something is
pending.

The model is functional. A `Builder` value holds the committed cache, the
pending cache, the task queue, the log of processes run, and the text of the
cache file. The filesystem is a `FileSystem` value mapping each existing path to
its last-write timestamp. Running a process appends it to the log. Writing the
cache file stores its text.

Modules:
- `Paths` (paths.dfy): file name, stem and parent path of a path string.
- `CacheFormat` (cache_format.dfy): the cache file's text format, `std::stoll`
  as used on each line, and the write/read round trip.
- `CommandLine` (command_line.dfy): a reader for argument vectors. Each
  tool's command line is checked against it. An option that takes a value
  consumes the next argument, and when an option occurs twice the first
  occurrence is the one read.
- `ResourceBuilder` (resource_builder.dfy): the state, the staleness check,
  the `Add*BuildTask` operations, draining and the cache operations.
- `BuilderProperties` (builder_properties.dfy): the decoded command lines,
  plus properties that span several operations.
- `TerrainNaming` (terrain_naming.dfy): `GetShaderOutputFilePath` and
  `GetTextureOutputFilePath`.

Behaviour of the code that the model keeps on purpose:
- A shader whose input path has no directory gets `--varyingdef
  /varying.def.sc`. The code appends `"/varying.def.sc"` to an empty parent
  path as plain text.
- If the cache file cannot be opened for writing, the pending entries stay
  pending. `WriteModifyCacheFile` returns before `UpdateModifyTimeCache` in
  that case.
- `Update` on an empty queue does not write the cache, even when entries are
  pending.
- The destructor (`ResourceBuilder.cpp:25-28`) calls `WriteModifyCacheFile`
  whatever the queue still holds. Pending entries are then committed even
  for inputs whose tasks never ran. A touched input whose rebuild was queued
  but not run is classified Stable by the next builder, and its stale output
  is kept (`BuilderProperties.TeardownCommitsUnbuiltInput`).
- `DeleteModifyTimeCache` removes only the file and keeps the in-memory
  caches. Any later write while something is pending (the teardown write, or
  `Update`) writes the whole committed cache back, so the delete does not
  force a cold start (`BuilderProperties.DeleteUndoneByTeardown`).
- A missing input is kept out of the queue only when `InputNotExist` is in
  the skip set. The skip set's value is not part of this model. With only
  `Stable` skipped, a request for a missing input queues its tool run
  (`BuilderProperties.MissingInputGate`).

## Model

| member | source | states |
|---|---|---|
| `ResourceBuilder.CheckFileStatus` | Engine/Source/Editor/Resources/ResourceBuilder.cpp:103-136 | Each status holds exactly when its condition holds. A missing input gives InputNotExist. An input absent from the committed cache gives InputAdded, whatever the output. A cached input whose timestamp moved gives InputModified, even when the output is missing. Otherwise the output's existence decides between OutputNotExist and Stable. Only InputAdded and InputModified record the current timestamp as pending. Nothing else in the builder changes. |
| `BuilderProperties.CheckIsIdempotent` | Engine/Source/Editor/Resources/ResourceBuilder.cpp:113-136 | Checking the same pair twice in a row gives the same status. The second check leaves the builder as the first one did, because pending entries never feed back into classification. |
| `BuilderProperties.CommitSettlesInput` | Engine/Source/Editor/Resources/ResourceBuilder.cpp:113-125 | Check an existing input, then commit the pending entries. A new check of that input now returns Stable if the output exists and OutputNotExist otherwise. This needs no stale pending entry for the input. |
| `BuilderProperties.ColdStart` | Engine/Source/Editor/Resources/ResourceBuilder.cpp:11-23 | Every existing input is classified InputAdded in three cases: with no cache file, after the caches are cleared, and when a builder is created straight from a state whose cache file was deleted, with no write in between. |
| `BuilderProperties.ColdStartAfterDelete` | Engine/Source/Editor/Resources/ResourceBuilder.cpp:25-28 | After a delete, when nothing is pending or the file cannot be opened, the teardown write leaves the file absent and the next builder classifies every existing input InputAdded. |
| `BuilderProperties.DeleteUndoneByTeardown` | Engine/Source/Editor/Resources/ResourceBuilder.cpp:297-303 | When something is pending, the teardown write after a delete restores the file from the kept caches. An input that was current and not pending is then Stable for the next builder, not InputAdded. |
| `BuilderProperties.TouchedInputIsQueued` | Engine/Source/Editor/Resources/ResourceBuilder.cpp:120-125 | With only Stable skipped, a cached input whose timestamp changed is queued even though its output exists. Its new timestamp becomes pending. |
| `BuilderProperties.StableInputIsSkipped` | Engine/Source/Editor/Resources/ResourceBuilder.cpp:229-232 | With only Stable skipped, a current input whose output exists is not queued. The builder is returned unchanged. |
| `ResourceBuilder.AddTask` | Engine/Source/Editor/Resources/ResourceBuilder.cpp:144-148 | The queue grows by one, with the given process at its tail. The earlier tasks are kept in order and nothing else changes. |
| `ResourceBuilder.SubmitUnlessSkipped` | Engine/Source/Editor/Resources/ResourceBuilder.cpp:152-155 | A task is queued exactly when the pair's status is outside the skip set. A skipped request leaves the builder as the check left it. A queued one appends the process to that builder's queue. |
| `ResourceBuilder.AddShaderBuildTask` | Engine/Source/Editor/Resources/ResourceBuilder.cpp:150-203 | The call reports a queued task exactly when the status is not skipped. A skipped call leaves the queue unchanged. Otherwise exactly the shaderc process is appended, and it waits until finished. Pending changes only as the check changes it. The committed cache, the run log and the cache file are unchanged. |
| `ResourceBuilder.AddCubeMapBuildTask` | Engine/Source/Editor/Resources/ResourceBuilder.cpp:205-225 | The same gate and queue contract, with the cmft process. |
| `ResourceBuilder.AddTextureBuildTask` | Engine/Source/Editor/Resources/ResourceBuilder.cpp:227-253 | The same gate and queue contract, with the texturec process. |
| `ResourceBuilder.ShaderArguments` | Engine/Source/Editor/Resources/ResourceBuilder.cpp:166-195 | The shaderc argument list. `ShaderArgumentsDecode` states exactly what shaderc reads from it. |
| `ResourceBuilder.VaryingDefPath` | Engine/Source/Editor/Resources/ResourceBuilder.cpp:162-164 | The varying definition path. `VaryingDefBesideSource` states its value. |
| `ResourceBuilder.TextureArguments` | Engine/Source/Editor/Resources/ResourceBuilder.cpp:239-247 | The texturec argument list. `TextureArgumentsDecode` and `TextureFlagsExclusive` state what texturec reads from it. |
| `ResourceBuilder.CubeMapArguments` | Engine/Source/Editor/Resources/ResourceBuilder.cpp:217-219 | The cmft argument list. `CubeMapArgumentsDecode` states what cmft reads from it. |
| `BuilderProperties.ShaderArgumentsDecode` | Engine/Source/Editor/Resources/ResourceBuilder.cpp:162-195 | shaderc reads the input, the varying definition in the input's directory, the output, platform `windows`, `-O 3`, and the type/profile pair of the role (v/vs_5_0, f/ps_5_0, c/cs_5_0). It reads a `--define` exactly when the uber option is present and non-empty. It reads nothing else. |
| `BuilderProperties.VaryingDefBesideSource` | Engine/Source/Editor/Resources/ResourceBuilder.cpp:162-164 | The varying definition of `dir/name` (with `dir` non-empty and `name` free of separators) is `dir/varying.def.sc`. For a bare file name it is `/varying.def.sc`. |
| `BuilderProperties.VaryingDefAtRoot` | Engine/Source/Editor/Resources/ResourceBuilder.cpp:162-164 | For a file directly under the root, with a name free of separators, the varying definition is `//varying.def.sc`: the root is kept as the parent and `/varying.def.sc` is appended as text. |
| `BuilderProperties.TextureArgumentsDecode` | Engine/Source/Editor/Resources/ResourceBuilder.cpp:239-247 | texturec reads the input, the output, BC3, `--mips`, quality `fastest` and `--max 1024`. It also reads `--normalmap` for a normal map, `--linear` for any role other than base colour and normal, and nothing else. |
| `BuilderProperties.TextureFlagsExclusive` | Engine/Source/Editor/Resources/ResourceBuilder.cpp:240-247 | `--normalmap` is present exactly for Normal, and `--linear` exactly for roles other than BaseColor and Normal. No texture gets both. |
| `BuilderProperties.CubeMapArgumentsDecode` | Engine/Source/Editor/Resources/ResourceBuilder.cpp:217-219 | cmft reads exactly the input, one output slot holding the output, excludeBase true, 7 mips, gloss scale 10, gloss bias 2 and warp edge fixup. |
| `ResourceBuilder.Update` | Engine/Source/Editor/Resources/ResourceBuilder.cpp:255-274 | An empty queue leaves the builder unchanged. Otherwise every queued process runs once, head first, and the queue ends empty. When something is pending and the file can be written, pending is merged into committed and cleared. If no committed path contains `=` or a newline, the new cache file then reads back as the committed cache. In every other case the caches and the file are unchanged. |
| `ResourceBuilder.WriteModifyCacheFile` | Engine/Source/Editor/Resources/ResourceBuilder.cpp:58-90 | Nothing changes unless something is pending and the file opens. Otherwise pending is merged into committed and cleared. When no committed path contains `=` or a newline, the file then holds exactly one line per committed entry, and reloading it reproduces the committed cache. |
| `ResourceBuilder.HasNewModifyTimeCache` | Engine/Source/Editor/Resources/ResourceBuilder.cpp:276-279 | Something is pending. `CheckRecordsPending` and `WriteModifyCacheFile` relate it to the check and to the write. |
| `BuilderProperties.CheckRecordsPending` | Engine/Source/Editor/Resources/ResourceBuilder.cpp:113-125 | After a check, something is pending exactly when something was pending before or the check returned InputAdded or InputModified. |
| `BuilderProperties.MissingInputGate` | Engine/Source/Editor/Resources/ResourceBuilder.cpp:105-109 | For a missing input, each of the three requests queues its task exactly when InputNotExist is not in the skip set. Neither cache changes. |
| `BuilderProperties.TeardownCommitsUnbuiltInput` | Engine/Source/Editor/Resources/ResourceBuilder.cpp:25-28 | Take a touched input whose rebuild is queued, and tear down without draining. Assume no cached path, pending path or the input contains `=` or a newline. The rebuild stays queued and unrun, yet a builder loaded from the written file classifies the input Stable. |
| `ResourceBuilder.UpdateModifyTimeCache` | Engine/Source/Editor/Resources/ResourceBuilder.cpp:281-289 | The committed keys become the union of the committed and pending keys. Pending values win, other committed values are kept, and pending becomes empty. |
| `ResourceBuilder.ClearModifyTimeCache` | Engine/Source/Editor/Resources/ResourceBuilder.cpp:291-295 | Both caches become empty. The queue, the run log and the file are kept. |
| `ResourceBuilder.DeleteModifyTimeCache` | Engine/Source/Editor/Resources/ResourceBuilder.cpp:297-303 | The cache file is gone and the in-memory state is kept. |
| `ResourceBuilder.Create` | Engine/Source/Editor/Resources/ResourceBuilder.cpp:11-23 | A new builder has no pending entries, no tasks and an empty run log. Without a cache file it starts with an empty committed cache. Its committed keys never contain `=` or a newline. |
| `CacheFormat.ParseLine` | Engine/Source/Editor/Resources/ResourceBuilder.cpp:45-51 | A line yields a record only if it contains `=`. The record's path is the text before the first `=`. |
| `CacheFormat.ParseCache` | Engine/Source/Editor/Resources/ResourceBuilder.cpp:42-53 | A loaded cache never has a key containing `=` or a newline. |
| `CacheFormat.ParseLines` | Engine/Source/Editor/Resources/ResourceBuilder.cpp:43-53 | Each line with `=` sets its path, and later lines win. `ParseLinesValidKeys` and `ParseLinesOfRecords` state what it yields. |
| `CacheFormat.ParseLinesValidKeys` | Engine/Source/Editor/Resources/ResourceBuilder.cpp:45-51 | No parsed key contains `=` or a newline. |
| `CacheFormat.ParseLinesOfRecords` | Engine/Source/Editor/Resources/ResourceBuilder.cpp:43-53 | When no record's path contains `=` or a newline, parsing the lines of written records gives the map of those records, a later record for the same path winning. |
| `CacheFormat.ParseTimeStamp` | Engine/Source/Editor/Resources/ResourceBuilder.cpp:50 | The `stoll` model of the text after `=`. `ParseShowTimeStamp` states that it inverts the writer. |
| `CacheFormat.Render` | Engine/Source/Editor/Resources/ResourceBuilder.cpp:84-87 | The text written: one `path=timestamp` line per record. `LinesOfRender` and `RoundTrip` state how it reads back. |
| `CacheFormat.ParseShowTimeStamp` | Engine/Source/Editor/Resources/ResourceBuilder.cpp:50 | Reading a written timestamp with the `stoll` model gives back the same long long, negative values included. |
| `CacheFormat.ParseRecordLine` | Engine/Source/Editor/Resources/ResourceBuilder.cpp:86 | A written `path=timestamp` line reads back as its record when the path has no `=` or newline. |
| `CacheFormat.LinesOfRender` | Engine/Source/Editor/Resources/ResourceBuilder.cpp:43 | When no record's path contains `=` or a newline, `getline` over the written text returns exactly the written records' lines, in order. |
| `CacheFormat.EntriesOf` | Engine/Source/Editor/Resources/ResourceBuilder.cpp:84 | The walk lists every entry of the map exactly once, with its value. |
| `CacheFormat.RoundTrip` | Engine/Source/Editor/Resources/ResourceBuilder.cpp:43-87 | Writing the records of a cache in any order gives one line per entry, and parsing the text back reproduces the cache, if no path contains `=` or a newline. |
| `Paths.FileNameFollowsSeparator` | Engine/Source/Editor/ECWorld/ECTerrainConsumer.cpp:129-130 | The file name starts at the beginning of the path or right after a separator. With `FileNameStart`'s own contract, no separator follows, so it is the text after the last separator. |
| `Paths.LastIndexOfIsLast` | Engine/Source/Editor/ECWorld/ECTerrainConsumer.cpp:148-149 | The period the stem cuts at is the last one in the file name. When none is found, the name has no period. |
| `Paths.Stem` | Engine/Source/Editor/ECWorld/ECTerrainConsumer.cpp:129-130 | The stem has no separator and is a prefix of the file name, so every directory component is dropped. |
| `Paths.StemOfNameWithExtension` | Engine/Source/Editor/ECWorld/ECTerrainConsumer.cpp:148-149 | The stem removes exactly the final extension from a non-empty file name. |
| `Paths.SameFileNameSameStem` | Engine/Source/Editor/ECWorld/ECTerrainConsumer.cpp:129-130 | Any two paths with the same file name have the same stem, whatever their directories, including bare names and root-level files. |
| `Paths.StemWithoutExtension` | Engine/Source/Editor/ECWorld/ECTerrainConsumer.cpp:129-130 | A file name with no period after its first character is its own stem, and so is `..`. With `StemOfNameWithExtension`, this pins the stem of every file name. |
| `Paths.ParentPath` | Engine/Source/Editor/Resources/ResourceBuilder.cpp:162-163 | The parent is a prefix of the path. `JoinedFileName`, `RootLevelParent` and `BareFileName` pin its value for a name in a directory, a name at the root, and a bare name. |
| `Paths.JoinedFileName` | Engine/Source/Editor/Resources/ResourceBuilder.cpp:162-163 | For a name without separators after a directory of at least two characters that ends in a separator, the file name is the name and the parent is the directory without its final separator. |
| `Paths.RootLevelParent` | Engine/Source/Editor/Resources/ResourceBuilder.cpp:162-164 | For a name without separators under the root separator, the file name is the name and the parent is the root `/` itself. |
| `Paths.BareFileName` | Engine/Source/Editor/Resources/ResourceBuilder.cpp:162-163 | A path without separators is its own file name and has an empty parent. |
| `TerrainNaming.GetShaderOutputFilePath` | Engine/Source/Editor/ECWorld/ECTerrainConsumer.cpp:127-143 | The path starts with the resources root followed by `Shaders/`, and ends in `.bin`. |
| `TerrainNaming.ShaderOutputDecode` | Engine/Source/Editor/ECWorld/ECTerrainConsumer.cpp:129-142 | When the input's stem is non-empty and the variant name has no separator, the output read back with the same path functions lies in `<root>Shaders`. Its stem is the input's stem, followed by `_<name>` exactly when a name other than the default uber option is given. |
| `TerrainNaming.VariantOutputs` | Engine/Source/Editor/ECWorld/ECTerrainConsumer.cpp:133-140 | Distinct non-default variants get distinct outputs. Naming the default variant gives the same path as naming none. A non-default variant's path differs from the unnamed one. |
| `TerrainNaming.GetTextureOutputFilePath` | Engine/Source/Editor/ECWorld/ECTerrainConsumer.cpp:146-153 | The path starts with the resources root followed by `Textures/`, and ends in `.dds`. |
| `TerrainNaming.TextureOutputDecode` | Engine/Source/Editor/ECWorld/ECTerrainConsumer.cpp:148-152 | When the input's stem is non-empty, the output read back lies in `<root>Textures` and its stem is the input's stem. |
| `TerrainNaming.SameFileNameSameShaderOutput` | Engine/Source/Editor/ECWorld/ECTerrainConsumer.cpp:129-142 | Any two shader sources with the same file name get the same output, for every variant. |
| `TerrainNaming.SameFileNameSameTextureOutput` | Engine/Source/Editor/ECWorld/ECTerrainConsumer.cpp:148-151 | Any two texture sources with the same file name get the same output. |

## Left out

- Filesystem calls (`exists`, `last_write_time`, `create_directories`, `remove`, the streams) are not modelled as calls. Existence and timestamps come from a `FileSystem` map. The cache file is a text value. Whether it can be opened for writing is a `canWrite` flag.
- `Engine::Clock::FileTimePointToTimeStamp` is not modelled. The `FileSystem` map holds already-converted timestamps.
- `Process` and `Run()` are external programs. A run appends the process to the `ran` log. Exit codes are not modelled, because the code ignores them.
- `GetModifyCacheFilePath` and `Path::GetApplicationDataPath` are a platform lookup and are not modelled. A lookup failure (empty path) behaves like a file that cannot be opened, which `canWrite` and `Create(None)` cover.
- The destructor is not a separate member. It calls `WriteModifyCacheFile`, which is modelled.
- Logging and the unreachable `ProcessStatus::None` tail of `CheckFileStatus` are not modelled.
- CacheFormat.ParseTimeStamp: `std::stoll` throws on a line with no digits or an out-of-range value. The model skips such a line instead of propagating the exception.
- CacheFormat.EntriesOf: the code writes the entries in the map's iteration order. The model allows any order, and the round trip holds for every order.
- `s_SkipStatus`, the `ProcessStatus` bit values, `CDENGINE_TOOL_PATH`, `CDENGINE_RESOURCES_ROOT_PATH` and `ShaderSchema::DefaultUberOption` are defined in files that are not part of this model. They are parameters: `Config.skipStatus`, `Config.toolPath` and `Layout`.
- TerrainNaming.VariantSuffix: the engine compares uber options by their `StringCrc` hash. The model compares the strings, so CRC collisions are not modelled.
- ResourceBuilder.ShaderTypeArguments: `ShaderType` is modelled with its three roles. A value outside them, for which the code pushes no `--type`, is not modelled.
- ResourceBuilder.TextureArguments: `TextureType` lists only the roles seen in the engine sources (BaseColor, Normal, Occlusion, Roughness, Metallic, Emissive). Any further role behaves like Occlusion.
- Paths.ParentPath: paths split at both `/` and `\`, as on the Windows target. Root names and runs of repeated separators are not modelled, and the model still gives such paths a value that can differ from the code's. For a file directly under a drive root, such as `C:/y.sc`, the model's parent is `C:` and the code's is `C:/`. Its varying definition is then `C:/varying.def.sc` in the model but `C://varying.def.sc` in the code.
- The rest of `ECTerrainConsumer.cpp` is not modelled: `Execute`, `AddStaticMesh`, `AddMaterial` and `Clear` are ECS and rendering plumbing. So are `SceneWorld.cpp`, the ImGui, debug-renderer and uniform headers, and the component headers.

=== FILE: builder_properties.dfy ===
/** Properties of the resource builder that relate several of its
    operations: the decoded command lines, idempotent classification, the
    effect of a commit on later classifications, and the cold start. */
module BuilderProperties {

  import opened Wrappers
  import opened Paths
  import opened CacheFormat
  import opened CommandLine
  import opened ResourceBuilder

  // ---------------------------------------------------------------------
  // Command lines, as the tools read them

  // The expected maps below are written innermost first: the option read
  // last in the argument list is inserted first. All keys are distinct, so
  // the order is only a matter of presentation.

  /** Options of shaderc, texturec and cmft that take a value. */
  const ShadercValued: set<string> := {"-f", "--varyingdef", "-o", "--platform", "-O", "--type", "-p", "--define"}
  const TexturecValued: set<string> := {"-f", "-o", "-t", "-q", "--max"}
  const CmftValued: set<string> :=
    {"--input", "--outputNum", "--output0", "--excludeBase", "--mipCount", "--glossScale", "--glossBias", "--edgeFixup"}

  /** The options shaderc reads from the role part of its command line:
      the type and profile of the role, and a define only for a non-empty
      uber option. */
  function RoleOptions(t: ShaderType, uberOptions: Option<string>): map<string, string> {
    var (ty, profile) :=
      match t
      case Vertex => ("v", "vs_5_0")
      case Fragment => ("f", "ps_5_0")
      case Compute => ("c", "cs_5_0");
    var define: map<string, string> :=
      if uberOptions.Some? && uberOptions.value != "" then map["--define" := uberOptions.value] else map[];
    define["-p" := profile]["--type" := ty]
  }

  /** shaderc reads the input, the sibling varying definition, the output,
      the fixed platform and optimisation level, and the role options. */
  lemma ShaderArgumentsDecode(t: ShaderType, input: string, output: string, uberOptions: Option<string>)
    ensures ReadOptions(ShaderArguments(t, input, output, uberOptions), ShadercValued) ==
      RoleOptions(t, uberOptions)["-O" := "3"]["--platform" := "windows"]["-o" := output]
        ["--varyingdef" := ParentPath(input) + "/varying.def.sc"]["-f" := input]
  {
    var V := ShadercValued;
    var a := ShaderArguments(t, input, output, uberOptions);
    ShaderRoleDecode(t, input, output, uberOptions);
    ReadValuedAt(a, 8, V);
    ReadValuedAt(a, 6, V);
    ReadValuedAt(a, 4, V);
    ReadValuedAt(a, 2, V);
    ReadValuedAt(a, 0, V);
    assert a[0..] == a;
  }

  /** The role part at the end of the shaderc command line. */
  lemma ShaderRoleDecode(t: ShaderType, input: string, output: string, uberOptions: Option<string>)
    ensures ReadOptions(ShaderArguments(t, input, output, uberOptions)[10..], ShadercValued) == RoleOptions(t, uberOptions)
  {
    var V := ShadercValued;
    var a := ShaderArguments(t, input, output, uberOptions);
    if uberOptions.Some? && uberOptions.value != "" {
      assert a[16..] == [];
      ReadValuedAt(a, 14, V);
    } else {
      assert a[14..] == [];
    }
    ReadValuedAt(a, 12, V);
    ReadValuedAt(a, 10, V);
  }

  /** The varying definition is looked up beside the shader source: for a
      source in a directory it is that directory's varying.def.sc, and for a
      bare file name the appended text makes it the rooted
      "/varying.def.sc". */
  lemma VaryingDefBesideSource(dir: string, name: string)
    requires dir != "" && HasNoSeparator(name)
    ensures VaryingDefPath(dir + "/" + name) == dir + "/varying.def.sc"
    ensures VaryingDefPath(name) == "/varying.def.sc"
  {
    BareFileName(name);
    JoinedFileName(dir + "/", name);
    assert (dir + "/")[..|dir + "/"| - 1] == dir;
  }

  /** For a source at the root the kept root separator and the appended
      one give "//varying.def.sc". */
  lemma VaryingDefAtRoot(name: string)
    requires HasNoSeparator(name)
    ensures VaryingDefPath("/" + name) == "//varying.def.sc"
  {
    RootLevelParent(name);
  }

  /** texturec always reads BC3, a mip chain, the fastest quality and the
      1024 clamp; a normal map alone adds --normalmap, and every role other
      than base colour and normal adds --linear. */
  lemma TextureArgumentsDecode(t: TextureType, input: string, output: string)
    ensures
      var flag: map<string, string> :=
        if t == Normal then map["--normalmap" := ""]
        else if t != BaseColor then map["--linear" := ""]
        else map[];
      ReadOptions(TextureArguments(t, input, output), TexturecValued) ==
        flag["--max" := "1024"]["-q" := "fastest"]["--mips" := ""]["-t" := "BC3"]["-o" := output]["-f" := input]
  {
    var V := TexturecValued;
    var a := TextureArguments(t, input, output);
    if t == BaseColor {
      assert a[11..] == [];
    } else {
      assert a[12..] == [];
      ReadSwitchAt(a, 11, V);
    }
    ReadValuedAt(a, 9, V);
    ReadValuedAt(a, 7, V);
    ReadSwitchAt(a, 6, V);
    ReadValuedAt(a, 4, V);
    ReadValuedAt(a, 2, V);
    ReadValuedAt(a, 0, V);
    assert a[0..] == a;
  }

  /** No texture is read as both a normal map and linear data, and base
      colour is the only role read as neither. */
  lemma TextureFlagsExclusive(t: TextureType, input: string, output: string)
    ensures var m := ReadOptions(TextureArguments(t, input, output), TexturecValued);
      && ("--normalmap" in m <==> t == Normal)
      && ("--linear" in m <==> t != BaseColor && t != Normal)
      && !("--normalmap" in m && "--linear" in m)
  {
    TextureArgumentsDecode(t, input, output);
  }

  /** cmft gets the same fixed filter settings whatever the input. */
  lemma CubeMapArgumentsDecode(input: string, output: string)
    ensures ReadOptions(CubeMapArguments(input, output), CmftValued) ==
      map["--edgeFixup" := "warp", "--glossBias" := "2", "--glossScale" := "10", "--mipCount" := "7",
          "--excludeBase" := "true", "--output0" := output, "--outputNum" := "1", "--input" := input]
  {
    var V := CmftValued;
    var a := CubeMapArguments(input, output);
    CubeMapFilterDecode(input, output);
    ReadValuedAt(a, 6, V);
    ReadValuedAt(a, 4, V);
    ReadValuedAt(a, 2, V);
    ReadValuedAt(a, 0, V);
    assert a[0..] == a;
  }

  /** The filter settings at the end of the cmft command line. */
  lemma CubeMapFilterDecode(input: string, output: string)
    ensures ReadOptions(CubeMapArguments(input, output)[8..], CmftValued) ==
      map["--edgeFixup" := "warp", "--glossBias" := "2", "--glossScale" := "10", "--mipCount" := "7"]
  {
    var V := CmftValued;
    var a := CubeMapArguments(input, output);
    assert a[16..] == [];
    ReadValuedAt(a, 14, V);
    ReadValuedAt(a, 12, V);
    ReadValuedAt(a, 10, V);
    ReadValuedAt(a, 8, V);
  }

  // ---------------------------------------------------------------------
  // Classification across calls

  /** Checking the same pair twice in a row gives the same status and leaves
      the builder as the first check left it: pending entries never feed
      back into classification. */
  lemma CheckIsIdempotent(b: Builder, fs: FileSystem, input: string, output: string)
    ensures var c1 := CheckFileStatus(b, fs, input, output);
            var c2 := CheckFileStatus(c1.builder, fs, input, output);
            c2.status == c1.status && c2.builder == c1.builder
  {
  }

  /** Once a check's pending entry is committed, the input is current: a
      later check of it is decided by the output alone. */
  lemma CommitSettlesInput(b: Builder, fs: FileSystem, input: string, output: string)
    requires input in fs.files
    requires input in b.pending ==> b.pending[input] == fs.files[input]
    ensures var c := CheckFileStatus(b, fs, input, output);
            var s := CheckFileStatus(UpdateModifyTimeCache(c.builder), fs, input, output).status;
            (output in fs.files ==> s == Stable) && (output !in fs.files ==> s == OutputNotExist)
  {
  }

  /** Cold start: without a cache file, after the cache is cleared, or when
      a builder is created straight from a state whose file was deleted,
      every existing input is new. */
  lemma ColdStart(b: Builder, fs: FileSystem, input: string, output: string)
    requires input in fs.files
    ensures CheckFileStatus(Create(None), fs, input, output).status == InputAdded
    ensures CheckFileStatus(ClearModifyTimeCache(b), fs, input, output).status == InputAdded
    ensures CheckFileStatus(Create(DeleteModifyTimeCache(b).cacheFile), fs, input, output).status == InputAdded
  {
  }

  /** A deleted cache file stays deleted through the teardown write only
      when that write does nothing: nothing is pending, or the file cannot
      be opened. The next builder then starts cold. */
  method ColdStartAfterDelete(b: Builder, canWrite: bool, fs: FileSystem, input: string, output: string)
    returns (after: Builder)
    requires input in fs.files
    requires !HasNewModifyTimeCache(b) || !canWrite
    ensures after.cacheFile.None?
    ensures CheckFileStatus(Create(after.cacheFile), fs, input, output).status == InputAdded
  {
    after := WriteModifyCacheFile(DeleteModifyTimeCache(b), canWrite);
  }

  /** Deleting the cache file keeps the in-memory caches, so while something
      is pending the teardown write puts the whole committed cache back. An
      input that was current before the delete is then Stable for the next
      builder, not new. */
  method DeleteUndoneByTeardown(b: Builder, fs: FileSystem, input: string, output: string)
    returns (after: Builder)
    requires HasNewModifyTimeCache(b) && ValidKeys(b.committed) && ValidKeys(b.pending)
    requires Current(b, fs, input) && input !in b.pending && output in fs.files
    ensures after.cacheFile.Some?
    ensures CheckFileStatus(Create(after.cacheFile), fs, input, output).status == Stable
  {
    after := WriteModifyCacheFile(DeleteModifyTimeCache(b), true);
    assert after.committed == b.committed + b.pending;
    assert ValidKeys(after.committed);
  }

  /** A touched input is rebuilt even though its old output exists, when
      only Stable is skipped. */
  lemma TouchedInputIsQueued(cfg: Config, b: Builder, fs: FileSystem, t: ShaderType, input: string, output: string)
    requires cfg.skipStatus == {Stable}
    requires input in fs.files && input in b.committed && b.committed[input] != fs.files[input]
    requires output in fs.files
    ensures var s := AddShaderBuildTask(cfg, b, fs, t, input, output, None);
            s.queued && s.builder.pending[input] == fs.files[input]
  {
  }

  /** A current input with its output in place is skipped when only Stable
      is skipped, and the builder is left exactly as it was. */
  lemma StableInputIsSkipped(cfg: Config, b: Builder, fs: FileSystem, t: TextureType, input: string, output: string)
    requires cfg.skipStatus == {Stable}
    requires Current(b, fs, input) && output in fs.files
    ensures AddTextureBuildTask(cfg, b, fs, t, input, output) == Submitted(false, b)
  {
  }

  /** A missing input is kept out of the queue only by the skip set itself:
      each request queues its tool run exactly when InputNotExist is not
      skipped, and neither cache changes. */
  lemma MissingInputGate(cfg: Config, b: Builder, fs: FileSystem, st: ShaderType, tt: TextureType,
                         input: string, output: string, uberOptions: Option<string>)
    requires input !in fs.files
    ensures AddShaderBuildTask(cfg, b, fs, st, input, output, uberOptions).queued <==> InputNotExist !in cfg.skipStatus
    ensures AddTextureBuildTask(cfg, b, fs, tt, input, output).queued <==> InputNotExist !in cfg.skipStatus
    ensures AddCubeMapBuildTask(cfg, b, fs, input, output).queued <==> InputNotExist !in cfg.skipStatus
    ensures AddShaderBuildTask(cfg, b, fs, st, input, output, uberOptions).builder.pending == b.pending
    ensures AddTextureBuildTask(cfg, b, fs, tt, input, output).builder.pending == b.pending
    ensures AddCubeMapBuildTask(cfg, b, fs, input, output).builder.pending == b.pending
  {
  }

  /** A check leaves something pending exactly when something was pending
      before or the check recorded a new or changed input, so the cache file
      is rewritten only after such a check. */
  lemma CheckRecordsPending(b: Builder, fs: FileSystem, input: string, output: string)
    ensures var c := CheckFileStatus(b, fs, input, output);
            HasNewModifyTimeCache(c.builder) <==> HasNewModifyTimeCache(b) || c.status in {InputAdded, InputModified}
  {
    var c := CheckFileStatus(b, fs, input, output);
    if c.status in {InputAdded, InputModified} {
      assert input in c.builder.pending;
    }
  }

  /** Teardown writes the cache whatever the queue still holds. A touched
      input whose rebuild is queued but never run is committed with its new
      timestamp, and a builder loaded from the written file classifies it
      Stable: the stale output is kept and the rebuild is lost. */
  method TeardownCommitsUnbuiltInput(cfg: Config, b: Builder, fs: FileSystem, t: ShaderType, input: string, output: string)
    returns (after: Builder)
    requires InputModified !in cfg.skipStatus
    requires input in fs.files && input in b.committed && b.committed[input] != fs.files[input]
    requires output in fs.files
    requires ValidKeys(b.committed) && ValidKeys(b.pending) && ValidKey(input)
    ensures after.tasks == b.tasks + [ShaderProcess(cfg, t, input, output, None)] && after.ran == b.ran
    ensures CheckFileStatus(Create(after.cacheFile), fs, input, output).status == Stable
  {
    var s := AddShaderBuildTask(cfg, b, fs, t, input, output, None);
    assert s.builder.pending == b.pending[input := fs.files[input]];
    after := WriteModifyCacheFile(s.builder, true);
    assert after.committed == b.committed + b.pending[input := fs.files[input]];
    assert ValidKeys(after.committed);
  }
}

=== FILE: cache_format.dfy ===
/** The text format of the modify-time cache file: one record per line,
    `path=timestamp`, the timestamp written in decimal. Reading splits each
    line at its first '=' and converts the rest with std::stoll. */
module CacheFormat {

  import opened Wrappers

  const MinInt64: int := -0x8000_0000_0000_0000
  const MaxInt64: int := 0x7FFF_FFFF_FFFF_FFFF

  /** A timestamp as the engine stores it: a long long. */
  type TimeStamp = t: int | MinInt64 <= t <= MaxInt64

  /** The committed or pending timestamp cache: input path to timestamp. */
  type Cache = map<string, TimeStamp>

  datatype Record = Record(path: string, timeStamp: TimeStamp)

  /** A path the format can carry: the first '=' of a line ends the path and
      a newline ends the line. */
  predicate ValidKey(k: string) {
    forall i :: 0 <= i < |k| ==> k[i] != '=' && k[i] != '\n'
  }

  predicate ValidKeys(m: Cache) {
    forall k :: k in m ==> ValidKey(k)
  }

  // ---------------------------------------------------------------------
  // Decimal numbers

  predicate IsDigit(c: char) {
    '0' <= c <= '9'
  }

  predicate AllDigits(s: string) {
    forall i :: 0 <= i < |s| ==> IsDigit(s[i])
  }

  function DigitChar(d: nat): (c: char)
    requires d < 10
    ensures IsDigit(c)
  {
    ['0', '1', '2', '3', '4', '5', '6', '7', '8', '9'][d]
  }

  function DigitValue(c: char): nat
    requires IsDigit(c)
  {
    (c as int - '0' as int) as nat
  }

  /** The value of a string of decimal digits, most significant first. */
  function DigitsValue(s: string): nat
    requires AllDigits(s)
  {
    if s == [] then 0 else DigitsValue(s[..|s| - 1]) * 10 + DigitValue(s[|s| - 1])
  }

  /** Decimal text of a natural number, without leading zeros. */
  function ShowNat(n: nat): (s: string)
    ensures s != [] && AllDigits(s)
  {
    if n < 10 then [DigitChar(n)] else ShowNat(n / 10) + [DigitChar(n % 10)]
  }

  /** What `operator<<` writes for a long long. */
  function ShowInt(i: int): (s: string)
    ensures s != []
  {
    if i < 0 then "-" + ShowNat(-i) else ShowNat(i)
  }

  /** The characters std::isspace accepts in the "C" locale. */
  predicate IsSpace(c: char) {
    c == ' ' || c == '\t' || c == '\n' || c == '\U{B}' || c == '\U{C}' || c == '\r'
  }

  function SkipSpaces(s: string): (t: string)
    ensures |t| <= |s| && forall i :: 0 <= i < |t| ==> t[i] == s[|s| - |t| + i]
    ensures t != [] ==> !IsSpace(t[0])
  {
    if s != [] && IsSpace(s[0]) then SkipSpaces(s[1..]) else s
  }

  /** The longest prefix of s made of digits. */
  function DigitPrefix(s: string): (d: string)
    ensures |d| <= |s| && d == s[..|d|] && AllDigits(d)
    ensures |d| < |s| ==> !IsDigit(s[|d|])
  {
    if s != [] && IsDigit(s[0]) then [s[0]] + DigitPrefix(s[1..]) else []
  }

  /** The value of the longest run of digits at the start of u, if any. */
  function Magnitude(u: string): Option<nat> {
    var d := DigitPrefix(u);
    if d == [] then None else Some(DigitsValue(d))
  }

  /** The signed value, when it fits a long long. */
  function WithSign(negative: bool, m: Option<nat>): Option<TimeStamp> {
    match m
    case None => None
    case Some(v) =>
      var w: int := if negative then -(v as int) else v as int;
      if MinInt64 <= w <= MaxInt64 then Some(w) else None
  }

  /** std::stoll in base 10: leading white space, an optional sign, then the
      longest run of digits; anything after it is ignored. Where stoll throws
      (no digits, or a value outside long long) the result is None. */
  function ParseTimeStamp(s: string): (r: Option<TimeStamp>)
  {
    var t := SkipSpaces(s);
    if t != [] && t[0] == '-' then WithSign(true, Magnitude(t[1..]))
    else if t != [] && t[0] == '+' then WithSign(false, Magnitude(t[1..]))
    else WithSign(false, Magnitude(t))
  }

  lemma {:induction false} DigitsValueOfShowNat(n: nat)
    ensures DigitsValue(ShowNat(n)) == n
  {
    if n >= 10 {
      var s := ShowNat(n);
      assert s[..|s| - 1] == ShowNat(n / 10);
      DigitsValueOfShowNat(n / 10);
    }
  }

  lemma {:induction false} DigitPrefixOfDigits(s: string)
    requires AllDigits(s)
    ensures DigitPrefix(s) == s
    decreases |s|
  {
    if s != [] {
      DigitPrefixOfDigits(s[1..]);
    }
  }

  lemma MagnitudeOfShowNat(n: nat)
    ensures Magnitude(ShowNat(n)) == Some(n)
  {
    DigitPrefixOfDigits(ShowNat(n));
    DigitsValueOfShowNat(n);
  }

  lemma FirstCharOfShowNat(n: nat)
    ensures !IsSpace(ShowNat(n)[0]) && ShowNat(n)[0] != '-' && ShowNat(n)[0] != '+'
  {
    assert IsDigit(ShowNat(n)[0]);
  }

  /** The decimal text of a long long reads back as that number. */
  lemma ParseShowTimeStamp(t: TimeStamp)
    ensures ParseTimeStamp(ShowInt(t)) == Some(t)
  {
    if t < 0 {
      ParseShowNegative(t);
    } else {
      ParseShowNonNegative(t);
    }
  }

  lemma ParseShowNonNegative(t: TimeStamp)
    requires t >= 0
    ensures ParseTimeStamp(ShowInt(t)) == Some(t)
  {
    var d := ShowNat(t);
    assert ShowInt(t) == d;
    FirstCharOfShowNat(t);
    assert SkipSpaces(d) == d;
    MagnitudeOfShowNat(t);
  }

  lemma ParseShowNegative(t: TimeStamp)
    requires t < 0
    ensures ParseTimeStamp(ShowInt(t)) == Some(t)
  {
    var n: nat := -(t as int);
    var s := "-" + ShowNat(n);
    assert ShowInt(t) == s;
    assert SkipSpaces(s) == s;
    assert s[1..] == ShowNat(n);
    MagnitudeOfShowNat(n);
    assert WithSign(true, Some(n)) == Some(t);
  }

  // ---------------------------------------------------------------------
  // Lines and records

  /** The lines std::getline delivers: the text is cut at every '\n'; a
      final line without '\n' still counts, an empty tail does not. */
  function Lines(text: string): (ls: seq<string>)
    ensures forall i :: 0 <= i < |ls| ==> '\n' !in ls[i]
    decreases |text|
  {
    if text == [] then []
    else if '\n' !in text then [text]
    else
      var i := IndexOf(text, '\n');
      [text[..i]] + Lines(text[i + 1..])
  }

  /** Index of the first occurrence of c in s. */
  function IndexOf(s: string, c: char): (i: nat)
    requires c in s
    ensures i < |s| && s[i] == c
    ensures forall j :: 0 <= j < i ==> s[j] != c
  {
    if s[0] == c then 0
    else
      assert c in s[1..] by { var k :| 0 <= k < |s| && s[k] == c; assert s[1..][k - 1] == c; }
      1 + IndexOf(s[1..], c)
  }

  /** ReadModifyCacheFile on one line: the path is everything before the
      first '=', the timestamp is parsed from everything after it. A line
      without '=' or without a readable number yields nothing. */
  function ParseLine(line: string): (r: Option<Record>)
    ensures r.Some? ==> ValidKey(r.value.path) || '\n' in line
    ensures r.Some? ==> '=' in line && r.value.path == line[..IndexOf(line, '=')]
  {
    if '=' !in line then None
    else
      var pos := IndexOf(line, '=');
      match ParseTimeStamp(line[pos + 1..])
      case None => None
      case Some(t) => Some(Record(line[..pos], t))
  }

  /** Later lines overwrite earlier ones for the same path, as the map
      assignment in the reading loop does. */
  function ParseLines(ls: seq<string>): Cache
    requires forall i :: 0 <= i < |ls| ==> '\n' !in ls[i]
  {
    if ls == [] then map[]
    else
      var first := match ParseLine(ls[0])
        case None => map[]
        case Some(r) => map[r.path := r.timeStamp];
      first + ParseLines(ls[1..])
  }

  /** The cache a file holding this text loads as. */
  function ParseCache(text: string): (m: Cache)
    ensures ValidKeys(m)
  {
    ParseLinesValidKeys(Lines(text));
    ParseLines(Lines(text))
  }

  /** Every path read from newline-free lines is a path the format can
      carry: it stops before the line's first '='. */
  lemma {:induction false} ParseLinesValidKeys(ls: seq<string>)
    requires forall i :: 0 <= i < |ls| ==> '\n' !in ls[i]
    ensures ValidKeys(ParseLines(ls))
  {
    if ls != [] {
      ParseLinesValidKeys(ls[1..]);
    }
  }

  function RecordLine(r: Record): string {
    r.path + "=" + ShowInt(r.timeStamp)
  }

  /** WriteModifyCacheFile's output for records in iteration order: each
      record followed by std::endl. */
  function Render(rs: seq<Record>): string {
    if rs == [] then "" else RecordLine(rs[0]) + "\n" + Render(rs[1..])
  }

  /** rs lists every entry of m exactly once. */
  predicate Enumerates(rs: seq<Record>, m: Cache) {
    && (forall i :: 0 <= i < |rs| ==> rs[i].path in m && m[rs[i].path] == rs[i].timeStamp)
    && (forall k :: k in m ==> exists i :: 0 <= i < |rs| && rs[i].path == k)
    && (forall i, j :: 0 <= i < j < |rs| ==> rs[i].path != rs[j].path)
  }

  /** Walks the entries of m one at a time, as the range-for over the map
      does; the order is not significant to the format. */
  method EntriesOf(m: Cache) returns (rs: seq<Record>)
    ensures Enumerates(rs, m)
  {
    rs := [];
    var rest := m.Keys;
    while rest != {}
      invariant rest <= m.Keys
      invariant forall i :: 0 <= i < |rs| ==> rs[i].path in m && rs[i].path !in rest && m[rs[i].path] == rs[i].timeStamp
      invariant forall k :: k in m && k !in rest ==> exists i :: 0 <= i < |rs| && rs[i].path == k
      invariant forall i, j :: 0 <= i < j < |rs| ==> rs[i].path != rs[j].path
      decreases rest
    {
      var k :| k in rest;
      var rs' := rs + [Record(k, m[k])];
      assert forall i :: 0 <= i < |rs| ==> rs'[i] == rs[i];
      assert rs'[|rs|].path == k;
      rs := rs';
      rest := rest - {k};
    }
  }

  /** The lines of the written text, one per record. */
  function RecordLines(rs: seq<Record>): (ls: seq<string>)
    ensures |ls| == |rs|
  {
    if rs == [] then [] else [RecordLine(rs[0])] + RecordLines(rs[1..])
  }

  lemma LinesCons(line: string, rest: string)
    requires '\n' !in line
    ensures Lines(line + "\n" + rest) == [line] + Lines(rest)
  {
    var text := line + "\n" + rest;
    assert text[..|line|] == line && text[|line|] == '\n';
    IndexOfSpec(text, '\n', |line|);
    assert text[|line| + 1..] == rest;
  }

  lemma {:induction false} LinesOfRender(rs: seq<Record>)
    requires forall i :: 0 <= i < |rs| ==> ValidKey(rs[i].path)
    ensures Lines(Render(rs)) == RecordLines(rs)
  {
    if rs != [] {
      var line := RecordLine(rs[0]);
      assert '\n' !in line by {
        assert ValidKey(rs[0].path);
        ShowIntHasNoNewline(rs[0].timeStamp);
        assert line == rs[0].path + ("=" + ShowInt(rs[0].timeStamp));
      }
      LinesCons(line, Render(rs[1..]));
      LinesOfRender(rs[1..]);
    }
  }

  lemma ShowIntHasNoNewline(t: int)
    ensures '\n' !in ShowInt(t)
  {
    var s := ShowInt(t);
    var d := ShowNat(if t < 0 then -t else t);
    forall i | 0 <= i < |s| ensures s[i] != '\n' {
      if t < 0 && i > 0 { assert s[i] == d[i - 1]; }
    }
  }

  lemma IndexOfSpec(s: string, c: char, i: nat)
    requires i < |s| && s[i] == c
    requires forall j :: 0 <= j < i ==> s[j] != c
    ensures IndexOf(s, c) == i
  {
  }

  /** Each written line reads back as the record it was written from. */
  lemma ParseRecordLine(r: Record)
    requires ValidKey(r.path)
    ensures ParseLine(RecordLine(r)) == Some(r)
  {
    var line := RecordLine(r);
    assert line[|r.path|] == '=' && line[..|r.path|] == r.path;
    IndexOfSpec(line, '=', |r.path|);
    assert line[|r.path| + 1..] == ShowInt(r.timeStamp);
    ParseShowTimeStamp(r.timeStamp);
  }

  /** Parsing the written text of an enumeration of m gives back m. */
  lemma {:induction false} ParseRender(rs: seq<Record>)
    requires forall i :: 0 <= i < |rs| ==> ValidKey(rs[i].path)
    ensures ParseCache(Render(rs)) == RecordsMap(rs)
  {
    LinesOfRender(rs);
    ParseLinesOfRecords(rs, Lines(Render(rs)));
  }

  /** The map the records denote when later records win. */
  function RecordsMap(rs: seq<Record>): Cache {
    if rs == [] then map[] else map[rs[0].path := rs[0].timeStamp] + RecordsMap(rs[1..])
  }

  lemma {:induction false} ParseLinesOfRecords(rs: seq<Record>, ls: seq<string>)
    requires forall i :: 0 <= i < |rs| ==> ValidKey(rs[i].path)
    requires ls == RecordLines(rs)
    requires forall i :: 0 <= i < |ls| ==> '\n' !in ls[i]
    ensures ParseLines(ls) == RecordsMap(rs)
  {
    if rs != [] {
      ParseRecordLine(rs[0]);
      ParseLinesOfRecords(rs[1..], ls[1..]);
    }
  }

  lemma {:induction false} RecordsMapOfEnumeration(rs: seq<Record>, m: Cache)
    requires Enumerates(rs, m)
    ensures RecordsMap(rs) == m
  {
    if rs == [] {
      EnumeratesNothing(m);
    } else {
      var k := rs[0].path;
      EnumeratesTail(rs, m);
      RecordsMapOfEnumeration(rs[1..], m - {k});
      SplitKey(m, k);
    }
  }

  /** An enumeration has one record per entry. */
  lemma {:induction false} EnumerationLength(rs: seq<Record>, m: Cache)
    requires Enumerates(rs, m)
    ensures |rs| == |m|
  {
    if rs == [] {
      EnumeratesNothing(m);
    } else {
      EnumeratesTail(rs, m);
      EnumerationLength(rs[1..], m - {rs[0].path});
    }
  }

  lemma EnumeratesNothing(m: Cache)
    requires Enumerates([], m)
    ensures m == map[]
  {
    assert forall k :: k !in m;
  }

  lemma SplitKey(m: Cache, k: string)
    requires k in m
    ensures m == map[k := m[k]] + (m - {k})
  {
  }

  /** Without its first record, an enumeration lists the rest of the map. */
  lemma EnumeratesTail(rs: seq<Record>, m: Cache)
    requires rs != [] && Enumerates(rs, m)
    ensures Enumerates(rs[1..], m - {rs[0].path})
  {
    var m' := m - {rs[0].path};
    forall k' | k' in m' ensures exists i :: 0 <= i < |rs[1..]| && rs[1..][i].path == k' {
      var i :| 0 <= i < |rs| && rs[i].path == k';
      assert rs[1..][i - 1].path == k';
    }
    forall i | 0 <= i < |rs[1..]| ensures rs[1..][i].path in m' {
      assert rs[1..][i].path == rs[i + 1].path != rs[0].path;
    }
  }

  /** Round trip: writing the records of m and reading the file back
      reproduces m, whenever no path contains '=' or a newline. */
  lemma RoundTrip(rs: seq<Record>, m: Cache)
    requires Enumerates(rs, m) && ValidKeys(m)
    ensures |Lines(Render(rs))| == |m|
    ensures ParseCache(Render(rs)) == m
  {
    assert forall i :: 0 <= i < |rs| ==> ValidKey(rs[i].path);
    LinesOfRender(rs);
    EnumerationLength(rs, m);
    ParseRender(rs);
    RecordsMapOfEnumeration(rs, m);
  }
}

=== FILE: command_line.dfy ===
/** How an external tool reads the argument vector it is started with: an
    option that takes a value consumes the next argument, any other option
    is a switch. This is the reading the build tasks' argument lists are
    checked against. */
module CommandLine {

  /** Options to the values they were given; a switch maps to "". When an
      option occurs twice the first occurrence is the one read. */
  function ReadOptions(args: seq<string>, valued: set<string>): map<string, string>
    decreases |args|
  {
    if args == [] then map[]
    else if args[0] in valued && |args| >= 2 then
      ReadOptions(args[2..], valued)[args[0] := args[1]]
    else
      ReadOptions(args[1..], valued)[args[0] := ""]
  }

  /** Reading from position i: an option that takes a value and has one
      consumes it. */
  lemma ReadValuedAt(args: seq<string>, i: nat, valued: set<string>)
    requires i + 2 <= |args| && args[i] in valued
    ensures ReadOptions(args[i..], valued) == ReadOptions(args[i + 2..], valued)[args[i] := args[i + 1]]
  {
    assert args[i..][2..] == args[i + 2..];
  }

  /** Reading from position i: any other argument is a switch. */
  lemma ReadSwitchAt(args: seq<string>, i: nat, valued: set<string>)
    requires i < |args| && args[i] !in valued
    ensures ReadOptions(args[i..], valued) == ReadOptions(args[i + 1..], valued)[args[i] := ""]
  {
    assert args[i..][1..] == args[i + 1..];
  }
}

=== FILE: paths.dfy ===
/** The part of std::filesystem::path that the resource pipeline relies on:
    the file name, its stem and the parent directory of a path string.
    Both '/' and '\\' separate components, as on the Windows platform the
    build commands target. */
module Paths {

  import opened Wrappers

  predicate IsSeparator(c: char) {
    c == '/' || c == '\\'
  }

  predicate HasNoSeparator(s: string) {
    forall i :: 0 <= i < |s| ==> !IsSeparator(s[i])
  }

  /** Index of the first character after the last separator of p (0 when p
      has no separator). */
  function FileNameStart(p: string): (n: nat)
    ensures n <= |p|
    ensures HasNoSeparator(p[n..])
    decreases |p|
  {
    if p == [] then 0
    else if IsSeparator(p[|p| - 1]) then |p|
    else
      var n := FileNameStart(p[..|p| - 1]);
      assert p[n..] == p[..|p| - 1][n..] + [p[|p| - 1]];
      n
  }

  /** The file name begins right after a separator, or at the start of p:
      together with FileNameStart's contract, it begins after the LAST one. */
  lemma {:induction false} FileNameFollowsSeparator(p: string)
    ensures FileNameStart(p) > 0 ==> IsSeparator(p[FileNameStart(p) - 1])
    decreases |p|
  {
    if p != [] && !IsSeparator(p[|p| - 1]) {
      var q := p[..|p| - 1];
      FileNameFollowsSeparator(q);
      var n := FileNameStart(q);
      if n > 0 {
        assert p[n - 1] == q[n - 1];
      }
    }
  }

  /** The last component of p: everything after its last separator. */
  function FileName(p: string): (f: string)
    ensures HasNoSeparator(f)
    ensures |f| <= |p| && f == p[|p| - |f|..]
  {
    p[FileNameStart(p)..]
  }

  /** Index of the last occurrence of c in s. */
  function LastIndexOf(s: string, c: char): (r: Option<nat>)
    ensures r.Some? ==> r.value < |s| && s[r.value] == c
    decreases |s|
  {
    if s == [] then None
    else if s[|s| - 1] == c then Some(|s| - 1)
    else LastIndexOf(s[..|s| - 1], c)
  }

  /** LastIndexOf finds the last occurrence, and None means there is none. */
  lemma {:induction false} LastIndexOfIsLast(s: string, c: char)
    ensures LastIndexOf(s, c).Some? ==> forall j :: LastIndexOf(s, c).value < j < |s| ==> s[j] != c
    ensures LastIndexOf(s, c).None? ==> forall j :: 0 <= j < |s| ==> s[j] != c
    decreases |s|
  {
    if s != [] && s[|s| - 1] != c {
      var t := s[..|s| - 1];
      LastIndexOfIsLast(t, c);
      assert forall j :: 0 <= j < |t| ==> t[j] == s[j];
    }
  }

  /** path::stem: the file name without its final extension. The names "."
      and "..", and a name whose only period is its first character, have no
      extension. */
  function Stem(p: string): (s: string)
    ensures HasNoSeparator(s)
    ensures |s| <= |FileName(p)| && s == FileName(p)[..|s|]
  {
    var f := FileName(p);
    if f == ".." then f
    else match LastIndexOf(f, '.')
      case None => f
      case Some(d) => if d == 0 then f else f[..d]
  }

  /** path::parent_path: p without its last component and the separator in
      front of it; a root separator is kept. */
  function ParentPath(p: string): (q: string)
    ensures |q| <= |p| && q == p[..|q|]
  {
    var n := FileNameStart(p);
    if n == 0 then ""
    else if n == 1 then p[..1]
    else p[..n - 1]
  }

  lemma ConcatHasNoSeparator(a: string, b: string)
    requires HasNoSeparator(a) && HasNoSeparator(b)
    ensures HasNoSeparator(a + b)
  {
    forall i | 0 <= i < |a + b| ensures !IsSeparator((a + b)[i]) {
      if i >= |a| { assert (a + b)[i] == b[i - |a|]; }
    }
  }

  /** A file name with no period after its first character, and "..",
      have no extension: the stem is the whole file name. */
  lemma StemWithoutExtension(p: string)
    ensures (forall j :: 0 < j < |FileName(p)| ==> FileName(p)[j] != '.') ==> Stem(p) == FileName(p)
    ensures FileName(p) == ".." ==> Stem(p) == ".."
  {
    LastIndexOfIsLast(FileName(p), '.');
  }

  /** A name without separators appended after a separator is the file name
      of the result, and what precedes that separator is its parent. */
  lemma {:induction false} JoinedFileName(dir: string, name: string)
    requires |dir| >= 2 && IsSeparator(dir[|dir| - 1])
    requires HasNoSeparator(name)
    ensures FileName(dir + name) == name
    ensures ParentPath(dir + name) == dir[..|dir| - 1]
    decreases |name|
  {
    if name == [] {
      assert dir + name == dir;
    } else {
      var init := name[..|name| - 1];
      assert (dir + name)[..|dir + name| - 1] == dir + init;
      assert !IsSeparator(name[|name| - 1]);
      JoinedFileName(dir, init);
    }
  }

  /** A name directly under the root separator has that name as its file
      name, and the root is kept as its parent. */
  lemma {:induction false} RootLevelParent(name: string)
    requires HasNoSeparator(name)
    ensures FileName("/" + name) == name
    ensures ParentPath("/" + name) == "/"
    decreases |name|
  {
    if name == [] {
      assert "/" + name == "/";
    } else {
      var init := name[..|name| - 1];
      assert ("/" + name)[..|"/" + name| - 1] == "/" + init;
      assert !IsSeparator(name[|name| - 1]);
      RootLevelParent(init);
    }
  }

  /** A path without separators is its own file name and has no parent. */
  lemma {:induction false} BareFileName(name: string)
    requires HasNoSeparator(name)
    ensures FileName(name) == name
    ensures ParentPath(name) == ""
    decreases |name|
  {
    if name != [] {
      assert !IsSeparator(name[|name| - 1]);
      BareFileName(name[..|name| - 1]);
    }
  }

  /** Stem is the inverse of appending an extension to a non-empty name. */
  lemma StemOfNameWithExtension(name: string, ext: string)
    requires name != "" && HasNoSeparator(name)
    requires HasNoSeparator(ext) && '.' !in ext
    requires name != "." || ext != ""
    ensures Stem(name + "." + ext) == name
  {
    var f := name + "." + ext;
    ExtendedNameIsNotDotDot(name, ext);
    LastPeriodOfExtendedName(name, ext);
    ExtendedNameHasNoSeparator(name, ext);
    BareFileName(f);
    StemCutsAtLastPeriod(f, |name|);
    PrefixOfExtendedName(name, ext);
  }

  lemma PrefixOfExtendedName(name: string, ext: string)
    ensures (name + "." + ext)[..|name|] == name
  {
  }

  lemma StemCutsAtLastPeriod(f: string, k: nat)
    requires FileName(f) == f && f != ".."
    requires LastIndexOf(f, '.') == Some(k) && k > 0
    ensures Stem(f) == f[..k]
  {
  }

  lemma ExtendedNameIsNotDotDot(name: string, ext: string)
    requires name != "" && (name != "." || ext != "")
    ensures name + "." + ext != ".."
  {
    if |name| == 1 && ext == [] {
      assert name == [name[0]];
      assert (name + "." + ext)[0] == name[0] != '.';
    }
  }

  /** The period placed before a period-free extension is the last one. */
  lemma LastPeriodOfExtendedName(name: string, ext: string)
    requires '.' !in ext
    ensures LastIndexOf(name + "." + ext, '.') == Some(|name|)
  {
    var f := name + "." + ext;
    assert f[|name|] == '.';
    assert forall j :: |name| < j < |f| ==> f[j] == ext[j - |name| - 1];
    LastIndexOfSpec(f, '.', |name|);
  }

  lemma ExtendedNameHasNoSeparator(name: string, ext: string)
    requires HasNoSeparator(name) && HasNoSeparator(ext)
    ensures HasNoSeparator(name + "." + ext)
  {
    ConcatHasNoSeparator(name, ".");
    ConcatHasNoSeparator(name + ".", ext);
  }

  /** The last occurrence is the one with no later occurrence. */
  lemma {:induction false} LastIndexOfSpec(s: string, c: char, i: nat)
    requires i < |s| && s[i] == c
    requires forall j :: i < j < |s| ==> s[j] != c
    ensures LastIndexOf(s, c) == Some(i)
    decreases |s|
  {
    if i < |s| - 1 {
      LastIndexOfSpec(s[..|s| - 1], c, i);
    }
  }

  /** Two paths that end in the same file name have the same stem, whatever
      their directories: the stem depends on the file name alone. */
  lemma SameFileNameSameStem(p: string, q: string)
    requires FileName(p) == FileName(q)
    ensures Stem(p) == Stem(q)
  {
  }
}

=== FILE: resource_builder.dfy ===
/** The incremental resource builder: it classifies each (input, output)
    pair against the committed timestamp cache, queues one external tool
    invocation per stale asset, runs the queue in order and then commits
    the newly seen timestamps and rewrites the cache file.

    The filesystem and the clock are inputs (a FileSystem value), running a
    process appends it to the `ran` log, and the cache file is the text held
    in `cacheFile`. */
module ResourceBuilder {

  import opened Wrappers
  import opened Paths
  import opened CacheFormat

  datatype ProcessStatus = InputNotExist | InputAdded | InputModified | OutputNotExist | Stable

  datatype ShaderType = Vertex | Fragment | Compute

  datatype TextureType = BaseColor | Normal | Occlusion | Roughness | Metallic | Emissive

  /** An external tool invocation; running it spawns the executable with the
      arguments and, when waitUntilFinished is set, blocks until it exits. */
  datatype Process = Process(executable: string, arguments: seq<string>, waitUntilFinished: bool)

  /** The files the builder can see: a path exists exactly when it has a
      last-write timestamp here. */
  datatype FileSystem = FileSystem(files: map<string, TimeStamp>)

  /** Build-time configuration: the directory holding the tools and the set
      of statuses for which no task is created. */
  datatype Config = Config(toolPath: string, skipStatus: set<ProcessStatus>)

  datatype Builder = Builder(
    committed: Cache,          // timestamps trusted from earlier runs
    pending: Cache,            // timestamps seen in this run, not yet trusted
    tasks: seq<Process>,       // the build queue, head first
    ran: seq<Process>,         // every process run so far, in order
    cacheFile: Option<string>) // text of the cache file; None when it is absent

  datatype Checked = Checked(status: ProcessStatus, builder: Builder)

  datatype Submitted = Submitted(queued: bool, builder: Builder)

  // ---------------------------------------------------------------------
  // Construction and the cache

  /** Construction: load the cache file when there is one, otherwise start
      cold with an empty cache. */
  function Create(cacheFile: Option<string>): (b: Builder)
    ensures b.pending == map[] && b.tasks == [] && b.ran == [] && b.cacheFile == cacheFile
    ensures ValidKeys(b.committed)
    ensures cacheFile.None? ==> b.committed == map[]
  {
    match cacheFile
    case None => Builder(map[], map[], [], [], None)
    case Some(text) => Builder(ParseCache(text), map[], [], [], cacheFile)
  }

  predicate HasNewModifyTimeCache(b: Builder) {
    b.pending != map[]
  }

  /** Merge the pending timestamps into the committed cache, pending entries
      winning, and forget them. */
  function UpdateModifyTimeCache(b: Builder): (r: Builder)
    ensures r.committed.Keys == b.committed.Keys + b.pending.Keys
    ensures forall k :: k in b.pending ==> r.committed[k] == b.pending[k]
    ensures forall k :: k in b.committed && k !in b.pending ==> r.committed[k] == b.committed[k]
    ensures r.pending == map[]
    ensures r.tasks == b.tasks && r.ran == b.ran && r.cacheFile == b.cacheFile
  {
    b.(committed := b.committed + b.pending, pending := map[])
  }

  /** Forget every timestamp, committed or pending. */
  function ClearModifyTimeCache(b: Builder): (r: Builder)
    ensures r.committed == map[] && r.pending == map[]
    ensures r.tasks == b.tasks && r.ran == b.ran && r.cacheFile == b.cacheFile
  {
    b.(committed := map[], pending := map[])
  }

  /** Remove the cache file; the in-memory caches are untouched. */
  function DeleteModifyTimeCache(b: Builder): (r: Builder)
    ensures r.cacheFile.None?
    ensures r.committed == b.committed && r.pending == b.pending
    ensures r.tasks == b.tasks && r.ran == b.ran
  {
    b.(cacheFile := None)
  }

  /** Nothing is written unless a new timestamp is pending. When the file
      cannot be opened for writing nothing changes, so the pending entries
      stay pending. Otherwise the pending entries are committed and the file
      is rewritten with one line per committed entry, which reads back as
      the committed cache. */
  method WriteModifyCacheFile(b: Builder, canWrite: bool) returns (r: Builder)
    ensures !HasNewModifyTimeCache(b) || !canWrite ==> r == b
    ensures HasNewModifyTimeCache(b) && canWrite ==>
      && r.committed == UpdateModifyTimeCache(b).committed
      && r.pending == map[]
      && r.cacheFile.Some?
      && (ValidKeys(r.committed) ==>
            |Lines(r.cacheFile.value)| == |r.committed| && Create(r.cacheFile).committed == r.committed)
    ensures r.tasks == b.tasks && r.ran == b.ran
  {
    if !HasNewModifyTimeCache(b) || !canWrite {
      return b;
    }
    var merged := UpdateModifyTimeCache(b);
    var written := EntriesOf(merged.committed);
    r := merged.(cacheFile := Some(Render(written)));
    if ValidKeys(r.committed) {
      RoundTrip(written, r.committed);
    }
  }

  // ---------------------------------------------------------------------
  // Staleness

  /** The committed cache holds the input's current timestamp. */
  predicate Current(b: Builder, fs: FileSystem, input: string) {
    input in fs.files && input in b.committed && b.committed[input] == fs.files[input]
  }

  /** Classify an (input, output) pair. The input's existence decides
      first, then whether the committed cache knows it, then whether its
      timestamp moved, and only for an unchanged input does the output's
      existence matter. A new or changed timestamp is recorded as pending;
      the committed cache is never written here. */
  function CheckFileStatus(b: Builder, fs: FileSystem, input: string, output: string): (r: Checked)
    ensures r.status == InputNotExist <==> input !in fs.files
    ensures r.status == InputAdded <==> input in fs.files && input !in b.committed
    ensures r.status == InputModified <==>
      input in fs.files && input in b.committed && b.committed[input] != fs.files[input]
    ensures r.status == OutputNotExist <==> Current(b, fs, input) && output !in fs.files
    ensures r.status == Stable <==> Current(b, fs, input) && output in fs.files
    ensures r.status in {InputAdded, InputModified} ==>
      r.builder == b.(pending := b.pending[input := fs.files[input]])
    ensures r.status !in {InputAdded, InputModified} ==> r.builder == b
  {
    if input !in fs.files then Checked(InputNotExist, b)
    else
      var now := fs.files[input];
      if input !in b.committed then Checked(InputAdded, b.(pending := b.pending[input := now]))
      else if b.committed[input] != now then Checked(InputModified, b.(pending := b.pending[input := now]))
      else if output !in fs.files then Checked(OutputNotExist, b)
      else Checked(Stable, b)
  }

  // ---------------------------------------------------------------------
  // Tasks

  function AddTask(b: Builder, p: Process): (r: Builder)
    ensures |r.tasks| == |b.tasks| + 1 && r.tasks[..|b.tasks|] == b.tasks && r.tasks[|b.tasks|] == p
    ensures r.committed == b.committed && r.pending == b.pending
    ensures r.ran == b.ran && r.cacheFile == b.cacheFile
  {
    b.(tasks := b.tasks + [p])
  }

  /** The gate shared by the three Add*BuildTask operations: classify the pair and queue p
      unless the status is one the configuration skips. */
  function SubmitUnlessSkipped(cfg: Config, b: Builder, fs: FileSystem, input: string, output: string, p: Process): (r: Submitted)
    ensures r.queued <==> CheckFileStatus(b, fs, input, output).status !in cfg.skipStatus
    ensures !r.queued ==> r.builder == CheckFileStatus(b, fs, input, output).builder
    ensures r.queued ==> r.builder == AddTask(CheckFileStatus(b, fs, input, output).builder, p)
  {
    var c := CheckFileStatus(b, fs, input, output);
    if c.status in cfg.skipStatus then Submitted(false, c.builder)
    else Submitted(true, AddTask(c.builder, p))
  }

  /** The varying definition file expected next to a shader source. The
      suffix is appended as text, so a bare file name yields a rooted
      "/varying.def.sc". */
  function VaryingDefPath(input: string): string {
    ParentPath(input) + "/varying.def.sc"
  }

  function ShaderTypeArguments(t: ShaderType): seq<string> {
    match t
    case Compute => ["--type", "c", "-p", "cs_5_0"]
    case Fragment => ["--type", "f", "-p", "ps_5_0"]
    case Vertex => ["--type", "v", "-p", "vs_5_0"]
  }

  /** A define is passed only for a present, non-empty uber option. */
  function DefineArguments(uberOptions: Option<string>): seq<string> {
    if uberOptions.Some? && uberOptions.value != "" then ["--define", uberOptions.value] else []
  }

  function ShaderArguments(t: ShaderType, input: string, output: string, uberOptions: Option<string>): seq<string> {
    ["-f", input, "--varyingdef", VaryingDefPath(input), "-o", output, "--platform", "windows", "-O", "3"]
      + ShaderTypeArguments(t) + DefineArguments(uberOptions)
  }

  function TextureArguments(t: TextureType, input: string, output: string): seq<string> {
    ["-f", input, "-o", output, "-t", "BC3", "--mips", "-q", "fastest", "--max", "1024"]
      + (if t == Normal then ["--normalmap"] else if t != BaseColor then ["--linear"] else [])
  }

  function CubeMapArguments(input: string, output: string): seq<string> {
    ["--input", input, "--outputNum", "1", "--output0", output, "--excludeBase", "true",
     "--mipCount", "7", "--glossScale", "10", "--glossBias", "2", "--edgeFixup", "warp"]
  }

  function ShaderProcess(cfg: Config, t: ShaderType, input: string, output: string, uberOptions: Option<string>): Process {
    Process(cfg.toolPath + "/shaderc", ShaderArguments(t, input, output, uberOptions), true)
  }

  function TextureProcess(cfg: Config, t: TextureType, input: string, output: string): Process {
    Process(cfg.toolPath + "/texturec", TextureArguments(t, input, output), true)
  }

  function CubeMapProcess(cfg: Config, input: string, output: string): Process {
    Process(cfg.toolPath + "/cmft", CubeMapArguments(input, output), true)
  }

  /** Queue a shaderc run for a stale shader; report whether one was queued. */
  function AddShaderBuildTask(cfg: Config, b: Builder, fs: FileSystem, t: ShaderType, input: string, output: string,
                              uberOptions: Option<string>): (r: Submitted)
    ensures r.queued <==> CheckFileStatus(b, fs, input, output).status !in cfg.skipStatus
    ensures r.builder.pending == CheckFileStatus(b, fs, input, output).builder.pending
    ensures r.builder.committed == b.committed && r.builder.ran == b.ran && r.builder.cacheFile == b.cacheFile
    ensures !r.queued ==> r.builder.tasks == b.tasks
    ensures r.queued ==> r.builder.tasks == b.tasks + [ShaderProcess(cfg, t, input, output, uberOptions)]
    ensures r.queued ==> r.builder.tasks[|b.tasks|].waitUntilFinished
  {
    SubmitUnlessSkipped(cfg, b, fs, input, output, ShaderProcess(cfg, t, input, output, uberOptions))
  }

  /** Queue a cmft run for a stale environment map. */
  function AddCubeMapBuildTask(cfg: Config, b: Builder, fs: FileSystem, input: string, output: string): (r: Submitted)
    ensures r.queued <==> CheckFileStatus(b, fs, input, output).status !in cfg.skipStatus
    ensures r.builder.pending == CheckFileStatus(b, fs, input, output).builder.pending
    ensures r.builder.committed == b.committed && r.builder.ran == b.ran && r.builder.cacheFile == b.cacheFile
    ensures !r.queued ==> r.builder.tasks == b.tasks
    ensures r.queued ==> r.builder.tasks == b.tasks + [CubeMapProcess(cfg, input, output)]
    ensures r.queued ==> r.builder.tasks[|b.tasks|].waitUntilFinished
  {
    SubmitUnlessSkipped(cfg, b, fs, input, output, CubeMapProcess(cfg, input, output))
  }

  /** Queue a texturec run for a stale texture. */
  function AddTextureBuildTask(cfg: Config, b: Builder, fs: FileSystem, t: TextureType, input: string, output: string): (r: Submitted)
    ensures r.queued <==> CheckFileStatus(b, fs, input, output).status !in cfg.skipStatus
    ensures r.builder.pending == CheckFileStatus(b, fs, input, output).builder.pending
    ensures r.builder.committed == b.committed && r.builder.ran == b.ran && r.builder.cacheFile == b.cacheFile
    ensures !r.queued ==> r.builder.tasks == b.tasks
    ensures r.queued ==> r.builder.tasks == b.tasks + [TextureProcess(cfg, t, input, output)]
    ensures r.queued ==> r.builder.tasks[|b.tasks|].waitUntilFinished
  {
    SubmitUnlessSkipped(cfg, b, fs, input, output, TextureProcess(cfg, t, input, output))
  }

  // ---------------------------------------------------------------------
  // Draining

  /** Run every queued process, head first, until the queue is empty, then
      write the cache file. An empty queue is left alone, and the cache is
      then not written either. */
  method Update(b: Builder, canWrite: bool) returns (r: Builder)
    ensures b.tasks == [] ==> r == b
    ensures b.tasks != [] ==> r.tasks == [] && r.ran == b.ran + b.tasks
    ensures b.tasks != [] && HasNewModifyTimeCache(b) && canWrite ==>
      && r.committed == UpdateModifyTimeCache(b).committed
      && r.pending == map[]
      && r.cacheFile.Some?
      && (ValidKeys(r.committed) ==> ParseCache(r.cacheFile.value) == r.committed)
    ensures !(b.tasks != [] && HasNewModifyTimeCache(b) && canWrite) ==>
      r.committed == b.committed && r.pending == b.pending && r.cacheFile == b.cacheFile
  {
    if b.tasks == [] {
      return b;
    }
    var queue := b.tasks;
    var ran := b.ran;
    while queue != []
      invariant ran + queue == b.ran + b.tasks
      decreases |queue|
    {
      assert ran + queue == (ran + [queue[0]]) + queue[1..];
      ran := ran + [queue[0]];
      queue := queue[1..];
    }
    assert ran == b.ran + b.tasks;
    r := WriteModifyCacheFile(b.(tasks := queue, ran := ran), canWrite);
  }
}

=== FILE: terrain_naming.dfy ===
/** Output file naming used by the terrain consumer when it requests builds:
    a compiled shader goes to `<root>Shaders/<stem>[_<variant>].bin` and a
    compressed texture to `<root>Textures/<stem>.dds`. */
module TerrainNaming {

  import opened Wrappers
  import opened Paths

  /** The resources root directory (ending in a separator) and the name of
      the default uber option. Uber options are compared by their CRC in the
      engine; here they are compared as strings. */
  datatype Layout = Layout(resourcesRoot: string, defaultUberOption: string)

  /** The "_<name>" that marks a non-default shader variant. */
  function VariantSuffix(layout: Layout, appendName: Option<string>): string {
    if appendName.Some? && appendName.value != layout.defaultUberOption then "_" + appendName.value else ""
  }

  function GetShaderOutputFilePath(layout: Layout, input: string, appendName: Option<string>): (r: string)
    ensures |r| >= |layout.resourcesRoot| + 12
    ensures r[..|layout.resourcesRoot| + 8] == layout.resourcesRoot + "Shaders/"
    ensures r[|r| - 4..] == ".bin"
  {
    layout.resourcesRoot + "Shaders/" + Stem(input) + VariantSuffix(layout, appendName) + ".bin"
  }

  function GetTextureOutputFilePath(layout: Layout, input: string): (r: string)
    ensures |r| >= |layout.resourcesRoot| + 13
    ensures r[..|layout.resourcesRoot| + 9] == layout.resourcesRoot + "Textures/"
    ensures r[|r| - 4..] == ".dds"
  {
    layout.resourcesRoot + "Textures/" + Stem(input) + ".dds"
  }

  /** Reading a shader output path back with the same path functions: it
      lies in <root>Shaders, and its stem is the input's stem, followed by
      "_<name>" exactly for a named non-default variant. */
  lemma ShaderOutputDecode(layout: Layout, input: string, appendName: Option<string>)
    requires Stem(input) != ""
    requires appendName.Some? ==> HasNoSeparator(appendName.value)
    ensures ParentPath(GetShaderOutputFilePath(layout, input, appendName)) == layout.resourcesRoot + "Shaders"
    ensures appendName.None? || appendName.value == layout.defaultUberOption ==>
      Stem(GetShaderOutputFilePath(layout, input, appendName)) == Stem(input)
    ensures appendName.Some? && appendName.value != layout.defaultUberOption ==>
      Stem(GetShaderOutputFilePath(layout, input, appendName)) == Stem(input) + "_" + appendName.value
  {
    var suffix := VariantSuffix(layout, appendName);
    SuffixHasNoSeparator(layout, appendName);
    ConcatHasNoSeparator(Stem(input), suffix);
    ShaderOutputShape(layout, input, appendName);
    JoinExtension(layout.resourcesRoot + "Shaders", Stem(input) + suffix, ".bin");
  }

  lemma SuffixHasNoSeparator(layout: Layout, appendName: Option<string>)
    requires appendName.Some? ==> HasNoSeparator(appendName.value)
    ensures HasNoSeparator(VariantSuffix(layout, appendName))
  {
    if appendName.Some? && appendName.value != layout.defaultUberOption {
      ConcatHasNoSeparator("_", appendName.value);
    }
  }

  lemma ShaderOutputShape(layout: Layout, input: string, appendName: Option<string>)
    ensures GetShaderOutputFilePath(layout, input, appendName)
      == ((layout.resourcesRoot + "Shaders") + "/") + ((Stem(input) + VariantSuffix(layout, appendName)) + ".bin")
  {
  }

  /** Reading a texture output path back: it lies in <root>Textures and its
      stem is the input's stem. */
  lemma TextureOutputDecode(layout: Layout, input: string)
    requires Stem(input) != ""
    ensures ParentPath(GetTextureOutputFilePath(layout, input)) == layout.resourcesRoot + "Textures"
    ensures Stem(GetTextureOutputFilePath(layout, input)) == Stem(input)
  {
    assert GetTextureOutputFilePath(layout, input) == ((layout.resourcesRoot + "Textures") + "/") + (Stem(input) + ".dds");
    JoinExtension(layout.resourcesRoot + "Textures", Stem(input), ".dds");
  }

  /** A name with an extension placed in a directory has that directory as
      parent and the name as stem. */
  lemma JoinExtension(parent: string, name: string, ext: string)
    requires parent != ""
    requires name != "" && HasNoSeparator(name)
    requires ext in {".bin", ".dds"}
    ensures ParentPath((parent + "/") + (name + ext)) == parent
    ensures Stem((parent + "/") + (name + ext)) == name
  {
    var dir := parent + "/";
    assert dir[..|dir| - 1] == parent;
    var e := ext[1..];
    assert ext == "." + e;
    assert e == "bin" || e == "dds";
    assert HasNoSeparator(e) && '.' !in e;
    var f := name + "." + e;
    assert f == name + ext;
    ExtendedNameHasNoSeparator(name, e);
    JoinedFileName(dir, f);
    StemOfNameWithExtension(name, e);
    BareFileName(f);
    SameFileNameSameStem(dir + f, f);
  }

  /** Distinct non-default variants of one shader get distinct outputs,
      and naming the default variant is the same as naming none. */
  lemma VariantOutputs(layout: Layout, input: string, a: string, b: string)
    ensures a != layout.defaultUberOption && b != layout.defaultUberOption && a != b ==>
      GetShaderOutputFilePath(layout, input, Some(a)) != GetShaderOutputFilePath(layout, input, Some(b))
    ensures GetShaderOutputFilePath(layout, input, Some(layout.defaultUberOption))
      == GetShaderOutputFilePath(layout, input, None)
    ensures a != layout.defaultUberOption ==>
      GetShaderOutputFilePath(layout, input, Some(a)) != GetShaderOutputFilePath(layout, input, None)
  {
    var p := layout.resourcesRoot + "Shaders/" + Stem(input);
    if a != layout.defaultUberOption && b != layout.defaultUberOption && a != b {
      assert VariantSuffix(layout, Some(a)) == "_" + a;
      assert VariantSuffix(layout, Some(b)) == "_" + b;
      assert ("_" + a)[1..] == a && ("_" + b)[1..] == b;
      InfixCancels(p, "_" + a, "_" + b, ".bin");
    }
    if a != layout.defaultUberOption {
      assert |VariantSuffix(layout, Some(a))| == 1 + |a|;
    }
  }

  lemma InfixCancels(p: string, x: string, y: string, s: string)
    ensures (p + x) + s == (p + y) + s ==> x == y
  {
    if (p + x) + s == (p + y) + s {
      assert |x| == |y|;
      assert x == ((p + x) + s)[|p|..|p| + |x|];
      assert y == ((p + y) + s)[|p|..|p| + |y|];
    }
  }

  /** Only the file name of the input matters: shader sources with the same
      file name in different directories share their outputs. */
  lemma SameFileNameSameShaderOutput(layout: Layout, input1: string, input2: string, appendName: Option<string>)
    requires FileName(input1) == FileName(input2)
    ensures GetShaderOutputFilePath(layout, input1, appendName) == GetShaderOutputFilePath(layout, input2, appendName)
  {
    SameFileNameSameStem(input1, input2);
  }

  /** The same for textures. */
  lemma SameFileNameSameTextureOutput(layout: Layout, input1: string, input2: string)
    requires FileName(input1) == FileName(input2)
    ensures GetTextureOutputFilePath(layout, input1) == GetTextureOutputFilePath(layout, input2)
  {
    SameFileNameSameStem(input1, input2);
  }
}

=== FILE: wrappers.dfy ===
/** The optional value used wherever the engine passes a nullable pointer or
    a lookup may fail. */
module Wrappers {

  datatype Option<+T> = None | Some(value: T)

}
